=== FILE: README.md ===
# plugged: plugin catalog and command dispatch, modelled in Dafny

`plugged` is a small Go library for "gateway" command-line applications: an
application `app` forwards sub-commands to sibling executables named
`app-<plugin>`, and keeps a catalog of installed plugins (name, description,
owning application) in a bolt key-value bucket called `plugins`, so that its
help screen can list them.

This project models the core of that library:

- **the argument dispatcher** `GatewayT.Run` (`Gateway.Run`): the help path,
  which lists the plugins and renders the help screen; the
  `--plugged-install` path, which installs every named plugin independently;
  and the fall-through, which does nothing and returns `nil`;
- **the registry over the bucket**: the upsert `UpdatePlugin`/`save`, the
  tolerant listing `Plugins`/`listPlugins`, the strict lookup `pluginFrom`,
  and the actions `install` (probe the binary for its description, then
  upsert) and `run` (resolve the binary, exec it);
- **the text** the command-list and help templates produce, before the
  tabwriter aligns columns.

Modules follow the source: `Bucket` (the bolt bucket: unique keys in
ascending byte order, `Get`, `Put`), `Plugin` (plugin.go's record, codec,
listing, lookup and save), `Store` (plugged.go's `UpdatePlugin` and
`Plugins` over a database that may lack the bucket or fail every
transaction), `Actions` (plugin.go's `install` and `run`), `Views`
(views.go), `Gateway` (plugged.go's `Run`), `Dispatch` (the plugin branch
the tests expect, see below), `Scenarios` (the test scenarios of
plugged_test.go replayed on the model), and the helpers `Results`
(Option/Result), `Errors` (one constructor per `fmt.Errorf` site and the
text it prints) and `Text` (byte order, split/join).

External collaborators are parameters: the metadata probe
(`exec.Command(...).Output()`), `exec.LookPath`, the exec capability
`execFn` and `os.Environ()` are passed in as functions and values. The JSON
codec is opaque: stored data is either data the decoder accepts, standing
for the record it decodes to, or data the decoder rejects (`Plugin.Blob`).
The probe is one fixed function for a whole run, so two probes of the same
binary within one batch give the same answer; `Gateway.BatchOrderIrrelevant`
relies on this when a name repeats (`[a, a]` against `[a]`). A bolt transaction is one atomic step on
the `Store.Db` value; a failing update leaves the value unchanged.

## Behaviour worth knowing

- `Run` as written has no plugin branch: any action other than help and
  `--plugged-install` returns `nil` and does nothing. The tests expect a
  third branch that runs an installed plugin, or prints a notice followed by
  the help screen. The tests show two notice details: no plugins installed
  at all, and `Plugin '<name>' was not found`. `Gateway.Run` models the code
  as written; `Dispatch.RunWithPlugins` builds the tested branch from the
  registry and action pieces, as a separate function. When the record under
  the action's name does not decode, the notice carries the decoder's
  message instead, and the help screen after it fails on the same record
  (`Dispatch.UndecodableActionNotice`).
- Undecodable records are not skipped: `listPlugins` keeps them as nil
  entries (plugin.go:28-36), and the command-list template then stops with
  a nil-pointer error, so one corrupt record makes the whole help path fail
  (`Gateway.CorruptEntryBreaksHelp`).
- bolt refuses a write with an empty key. Installing the name `""` first
  probes the binary `<app>-`; when that probe fails, the install fails with
  the probe error. When the probe answers, the install fails with `Unable to
  save plugin to storage - Unable to save plugin to bucket 'plugins' - key
  required`, and the transaction, bucket creation included, is rolled back.
- plugged.go calls `NewPlugin`, `Install`, `Save` and `ListPlugins`, and
  plugin.go:75 calls `updatePlugin`; plugin.go defines `newPlugin`,
  `install`, `save`, `listPlugins` and plugged.go defines `UpdatePlugin`.
  The model treats each pair as one function. The two templates are declared twice with the same
  text (plugged.go:14-31, views.go:11-39); the model defines them once.
- Strings are sequences of Unicode scalars; bolt orders keys by their UTF-8
  bytes, which is the same as code-point order (`Text.Below`).

## Model

| member | source | states |
|---|---|---|
| `Bucket.Get` | plugin.go:46 | a lookup returns the data of the entry with that key; it is absent exactly when no entry has the key |
| `Bucket.GetAt` | plugin.go:28 | in a bucket visited in key order, each visited entry is what a lookup of its key returns |
| `Bucket.Put` | plugin.go:87 | a write keeps keys unique and ascending; a bound below the old keys and the new key stays below all keys |
| `Bucket.PutGet` | plugin.go:87 | after a write the key maps to the written value and every other key keeps its value |
| `Bucket.PutLength` | plugin.go:87 | a write adds an entry exactly when the key was new, otherwise replaces in place |
| `Bucket.PutPutSameKey` | plugin.go:81-88 | writing one key twice leaves only the second value |
| `Bucket.PutPutCommute` | plugged_test.go:110-129 | writes to distinct keys give the same bucket in either order |
| `Plugin.NewPlugin` | plugin.go:18-23 | a fresh record carries the plugin's name and its application's name, with no description until the probe fills it in |
| `Plugin.Decode` | plugin.go:54-62 | decoding succeeds exactly on data the decoder accepts and yields the record that data denotes; other data fails with the unmarshal error naming the key, the data and the decoder's complaint |
| `Plugin.Encode` | plugin.go:81-84 | encoding a record never fails and decodes back to the same record |
| `Plugin.ListPlugins` | plugin.go:25-43 | one entry per stored key in iteration order; undecodable data gives a nil entry, never an error and never a skip |
| `Plugin.PluginFrom` | plugin.go:45-52 | absent key fails with exactly `Plugin '<name>' was not found`; a present key succeeds exactly when its data decodes, and returns the stored record; bad data is a decode error |
| `Plugin.Save` | plugin.go:81-88 | stores the encoded record under its name, replacing an earlier one and keeping other keys; fails with bolt's `key required` exactly for an empty name |
| `Plugin.SaveThenLookup` | plugin.go:45-88 | a saved record is what the strict lookup then returns |
| `Plugin.SaveTwiceKeepsSecond` | plugin.go:81-88 | saving two records of one name keeps only the second |
| `Plugin.SaveKeepsFaithful` | plugin.go:81-88 | saving keeps every decodable entry named after its key |
| `Plugin.ListingAgreesWithLookup` | plugin.go:25-52 | the tolerant listing's entry for a key is the strict lookup's record, nil exactly when the lookup fails |
| `Plugin.ListingAscending` | plugin.go:28-36 | the listed records come out in strictly ascending name order |
| `Errors.Message` | plugin.go:75-77 | an error's text is its cause for bolt's own errors, and each storage wrap keeps the wrapped error's text at its end |
| `Errors.NotFoundQuotesName` | plugin.go:48 | the not-found message quotes the requested name verbatim |
| `Store.KeyRequiredMessage` | plugged.go:105-106 | an upsert refused for an empty name reports `Unable to save plugin to bucket 'plugins' - key required` |
| `Store.UpdatePlugin` | plugged.go:97-110 | on success the bucket exists, the name maps to the record and all other keys are unchanged; a failing transaction or empty name returns the wrapped error and changes nothing |
| `Store.UpdatePluginKeepsValid` | plugged.go:97-110 | upserting keeps every stored record under its own name |
| `Store.Plugins` | plugged.go:112-131 | a missing bucket is an empty list and no error; only a transaction failure is an error; otherwise one entry per key, agreeing with the strict lookup |
| `Actions.CommandName` | plugin.go:65 | a plugin's binary is named by the application's name, a `-`, then the plugin's name, each of which reads back out |
| `Actions.CommandNamesDiffer` | plugin.go:91 | two plugins of one application never share a binary name |
| `Actions.Install` | plugin.go:64-79 | probes `<app>-<name>` with the single argument `--plugged-description`; a failed probe is an error and leaves the store untouched; otherwise the probe's output becomes the description and the record is upserted |
| `Actions.InstallKeepsValid` | plugin.go:64-79 | installing keeps every decodable record under its own name |
| `Actions.InstallKeepsOwned` | plugin.go:64-79 | installing a plugin of an application keeps every decodable record owned by that application |
| `Actions.RunPlugin` | plugin.go:90-105 | a failed path lookup is an error and no exec happens; otherwise exec gets the resolved binary, argv `[<app>-<name>] ++ args` and the environment verbatim, and its failure is wrapped |
| `Views.EntryTextFields` | views.go:38 | a plugin's command-list line is `- `, the name, a tab and ` - `, then the description, with name and description reading back out |
| `Views.CommandList` | views.go:37-39 | the command list ends with the help entry, and is only the help entry exactly when there are no plugins |
| `Views.RenderCommandList` | views.go:45-58 | the template succeeds exactly when no listed plugin is nil, yielding the command list; a nil plugin gives the nil-pointer error |
| `Views.CommandListLines` | views.go:38 | without line breaks in names and descriptions the list is one line per plugin in list order, then the help line: plugin count plus one entries |
| `Views.HelpView` | views.go:11-22 | the help screen starts with the usage line and the description and ends with the `command --help` hint |
| `Views.HelpViewCarriesCommands` | views.go:16-17 | the help screen holds the command list verbatim: it reads back out |
| `Gateway.Help` | plugged.go:48-64 | the help path changes nothing; a listing error is returned unchanged with nothing written; otherwise it fails exactly on a nil entry, else writes the help screen around the command list |
| `Gateway.InstallEach` | plugged.go:66-77 | the install loop yields one error slot per name |
| `Gateway.Run` | plugged.go:47-80 | one argument, `help` or `--help` takes the help path whatever follows; `--plugged-install` installs `args[2:]` and returns nil; any other action returns nil and changes nothing |
| `Gateway.InstallEachSplits` | plugged.go:68-74 | names are installed strictly in order: a batch is its first part, then its second part on the store the first left |
| `Gateway.InstallEachEffect` | plugged.go:66-77 | on a working store each installable name holds its probed record whatever failed around it, other keys keep their data, name `i` fails exactly when not installable, and the bucket exists exactly when it did or something was installed |
| `Gateway.InstallEachKeepsValid` | plugged.go:66-77 | a batch install keeps every decodable record under its own name |
| `Gateway.InstallEachKeepsOwned` | plugged.go:66-77 | a batch install of one application keeps every decodable record owned by it |
| `Gateway.RunKeepsCatalog` | plugged.go:47-80 | every invocation keeps both catalog invariants, so a store built by any series of runs has them |
| `Gateway.RunListingAscending` | plugged_test.go:87-129 | after any invocation on a store holding both catalog invariants, the listed names come out strictly ascending, whatever order and however many runs installed them |
| `Gateway.InstallEachUnderFault` | plugged.go:66-77 | on a failing store a batch changes nothing and every name fails |
| `Gateway.BatchOrderIrrelevant` | plugged_test.go:87-174 | batches over the same set of names leave the same store, whatever the order |
| `Gateway.InstallTwiceKeepsOne` | plugin.go:81-88 | installing a name twice leaves one record, the second install's |
| `Gateway.CorruptEntryBreaksHelp` | plugin.go:28-36 | one undecodable record makes the help path fail with the nil-pointer error and write nothing |
| `Gateway.FreshBatchBucket` | plugged.go:66-77 | after a batch into a fresh store the bucket holds exactly the installable names with their probed records |
| `Gateway.InstalledListing` | plugged.go:112-131 | installing installable names into a fresh store and listing gives exactly those names with their probed descriptions, ascending, none nil |
| `Dispatch.Resolve` | plugged_test.go:244-278 | no bucket gives the detail `There are no plugins installed`; a bucket without the name gives `Plugin '<name>' was not found`; a plugin is found exactly when its data is stored and decodes; undecodable data gives the decoder's message as the detail |
| `Dispatch.RunWithPlugins` | plugged_test.go:226-321 | built-ins behave as `Run`; a missing plugin prints the notice then the help screen; a found plugin is run with the remaining arguments |
| `Dispatch.UndecodableActionNotice` | plugin.go:28-36 | undecodable data under the action's name gives the notice with the decoder's message, after which help fails on the same record: no exec, nothing else written, the nil-pointer error |
| `Dispatch.FoundPluginIsExecuted` | plugged_test.go:292-321 | an installed plugin is exec'd with argv `[<app>-<name>] ++ args[2:]` and the environment |
| `Dispatch.InstalledPluginIsExecuted` | plugged_test.go:292-321 | a plugin installed by one invocation is exec'd by a later one with argv `[<app>-<name>] ++ args[2:]` and the environment |
| `Dispatch.BuiltinsShadowPlugins` | plugged.go:48-66 | `help`, `--help` and `--plugged-install` never exec a plugin, even one stored under that very name |
| `Dispatch.MissingWithNoPlugins` | plugged_test.go:263-290 | on a fresh store an unknown action prints the `There are no plugins installed` notice, then the help screen with only the help entry, and succeeds |
| `Dispatch.MissingAmongPlugins` | plugged_test.go:226-261 | with a bucket lacking the name the notice carries `Plugin '<name>' was not found`, followed by the help screen |
| `Scenarios.DefaultMessageWithoutPlugins` | plugged_test.go:26-49 | on a fresh store, no argument, `help` and `--help` all print the help screen with only the help entry and change nothing |
| `Scenarios.InstallFindIntoEmpty` | plugged_test.go:67-70 | installing `find` into a fresh store stores it with the description the probe prints |
| `Scenarios.HelpWithFind` | plugged_test.go:51-85 | with only `find` installed, the help screen lists `find` and the help entry |
| `Scenarios.InstallActivateAfterFind` | plugged_test.go:110-113 | installing `activate` into the store holding `find` yields the store holding both |
| `Scenarios.InstallBothInOneRun` | plugged_test.go:155-158 | one batch of `find activate` yields the same store as the two separate installs |
| `Scenarios.ActivateLine` | plugged_test.go:123 | the command-list line for `activate` is `- activate`, a tab, ` - Activate stuff.` |
| `Scenarios.FindLine` | plugged_test.go:79 | the command-list line for `find` is `- find`, a tab, ` - Find some stuff.` |
| `Scenarios.ListingOfBoth` | plugged_test.go:110-113 | with both test plugins stored, the listing is `activate` then `find`, neither nil |
| `Scenarios.HelpWithBoth` | plugged_test.go:116-129 | with both test plugins the listing and the help screen put `activate` before `find` |
| `Scenarios.FindMissingAmongPlugins` | plugged_test.go:226-261 | the not-found notice with `Plugin 'find' was not found`, then help listing `activate` |
| `Scenarios.FindMissingWithoutPlugins` | plugged_test.go:263-290 | the notice with `There are no plugins installed`, then help listing only the help entry |
| `Scenarios.InstallForRun` | plugged_test.go:298-314 | installing `activate find` with that scenario's scripts into a fresh store stores both, `find` described as `Activate stuff.` |
| `Scenarios.FindInstalledRuns` | plugged_test.go:313-320 | on that store `exampleapp find stuff things` execs `tmp/bin/exampleapp-find` with argv `[exampleapp-find, stuff, things]` |

## Left out

- bolt file handling: `Connect`, `Disconnect`, the `<home>/.<app>.db` path, file locking and transaction internals; a transaction is one atomic step, and every bolt failure (closed database, I/O) is the one transaction-level fault of `Store.Db`.
- bolt's key and value size limits; only its refusal of an empty key is modelled.
- The JSON codec's internals; decoding is determined by the stored data's form (`Plugin.Blob`).
- `exec.Command`, `exec.LookPath`, `os.Environ`, `syscall.Exec`: oracles and parameters, since they are process and OS calls.
- The tabwriter's column alignment and the template engine itself: the model produces the text before alignment.
- api.go's entry-point wiring and the gateway's `Stdin`, `Home`, `PluginList` and `AvailableCommands` fields, which only carry values between the steps the model composes directly.
- The `fmt.Printf` diagnostics: the `[ERROR]` line for undecodable data and the `Failed to get metadata` line per failed install; the batch returns each name's error instead.
- Errors.Message: the `%v` rendering of the command-list view (it prints pointer addresses) is written as `<view>`, and the `%+v` rendering of undecodable bytes is carried as a given string. The template engine's nil-pointer error (`Views.NilPluginName`) keeps only its tail `nil pointer evaluating *plugged.pluginT.Name`; the engine's `template: commandListView:<position>: executing "commandListView" at <.Name>:` prefix is left out, because the position format belongs to the engine.
- Error wraps that cannot happen: `Unable to obtain bucket 'plugins'` (the bucket name is a valid constant), `Unable to get plugins` (the listing callback never fails), the marshal failure in `save` (three strings always encode), `Unable to execute helpView template` and writer failures on the gateway's output (I/O).
- Views.CommandListLines: the line-per-plugin reading holds only when names and descriptions contain no line break (a description printed by `echo` without `-n` ends in one).
- Dispatch.RunWithPlugins: the tests do not say what a storage failure during the lookup or an exec failure does; the model returns the error in both cases.
- Dispatch.RunWithPlugins: the tests do not say what undecodable data under the action's name does; the model prints the notice with the decoder's message as its details, then the help path fails on the same record's nil entry, so the result is the notice alone and the nil-pointer error.
- Gateway.Run: an empty argument vector makes `Run` panic at plugged.go:48 (`len(args) == 1` is false, so `args[1]` is out of range); the model excludes it with `requires |args| >= 1`, since the program name is always `args[0]`. The same holds for `Dispatch.RunWithPlugins`.
- Refusing reserved names such as `help` at install time: the code does not, and neither does the model; such a plugin is unreachable through dispatch (`Dispatch.BuiltinsShadowPlugins`).
- Plugin.Decode: `json.Unmarshal` into a record (plugin.go:57) also accepts data `json.Marshal` never writes: `null`, `{}`, keys in another letter case, unknown fields, surrounding whitespace. The model does not tell these forms apart: `Json(r)` stands for every stored form that decodes to `r`, so `Plugin.PluginFrom`'s `Get(b, name) == Some(Encode(r))` says the stored data decodes to `r`, not that it holds `json.Marshal`'s bytes.
- Gateway.BatchOrderIrrelevant: holds for a probe that answers the same for the same binary within a run; a binary that prints a different description on its second probe in one batch would leave the later answer, which depends on order.
- Plugin.Encode: Go strings are byte strings, and a name from the command line or a description from the probe's output can hold invalid UTF-8. `json.Marshal` (plugin.go:82) replaces such bytes with U+FFFD while the bolt key keeps the raw bytes (plugin.go:87), so such a record does not decode back to itself and its name differs from its key. Model strings are sequences of Unicode scalars and cannot hold these inputs; the round trip and `Store.Valid` are stated only for them.

=== FILE: actions.dfy ===
/** The plugin actions that reach outside the process: `install` probes the
    plugin's binary for its description and records it, `run` hands control
    to the binary. The probe, the search-path lookup and the exec capability
    are oracles passed in as functions. */
module Actions {
  import opened Results
  import opened Errors
  import opened Plugin
  import opened Store

  /** Runs a command with arguments and yields its standard output, or the
      reason it failed (launch failure or non-zero exit). */
  type Probe = (string, seq<string>) -> Result<string, string>

  /** Resolves a command name on the search path to a binary path. */
  type LookPath = string -> Result<string, string>

  /** Executes a binary with an argument vector and an environment; yields
      the failure, if any. */
  type ExecFn = (string, seq<string>, seq<string>) -> Option<string>

  /** The one argument of the metadata probe. */
  const DescriptionFlag := "--plugged-description"

  /** A plugin's binary is named after the application and the plugin. */
  function CommandName(p: Plugin): (command: string)
    ensures |command| == |p.appName| + 1 + |p.name|
    ensures command[..|p.appName|] == p.appName && command[|p.appName|] == '-'
    ensures command[|p.appName| + 1..] == p.name
  {
    var command := p.appName + "-" + p.name;
    assert command[|p.appName| + 1..] == p.name;
    command
  }

  /** Two plugins of one application never share a binary. */
  lemma CommandNamesDiffer(p: Plugin, q: Plugin)
    requires p.appName == q.appName && p.name != q.name
    ensures CommandName(p) != CommandName(q)
  {
  }

  /** The description the probe of `p`'s binary yields. */
  function ProbeOf(p: Plugin, probe: Probe): Result<string, string>
  {
    probe(CommandName(p), [DescriptionFlag])
  }

  /** The record `p` is stored as once its probe has answered. */
  function Described(p: Plugin, probe: Probe): Blob
    requires ProbeOf(p, probe).Ok?
  {
    Json(p.(description := ProbeOf(p, probe).value))
  }

  /** What the store holds under `k` once `p` is installed. */
  function Installed(db: Db, p: Plugin, probe: Probe, k: string): Option<Blob>
    requires ProbeOf(p, probe).Ok?
  {
    if k == p.name then Some(Described(p, probe)) else Lookup(db, k)
  }

  /** Probes the binary for its description and upserts the described record;
      a failed probe leaves the store untouched. */
  function Install(db: Db, p: Plugin, probe: Probe): (r: Outcome)
    ensures ProbeOf(p, probe).Err? ==>
      r == Outcome(db, Some(ProbeFailed(CommandName(p), ProbeOf(p, probe).error)))
    ensures ProbeOf(p, probe).Ok? ==> (r.err.None? <==> db.fault.None? && p.name != "")
    ensures ProbeOf(p, probe).Ok? && r.err.Some? ==> r.err.value.StorageFailed?
    ensures r.err.Some? ==> r.db == db
    ensures r.err.None? ==> r.db.fault.None? && r.db.plugins.Some?
    ensures r.err.None? ==> forall k :: Lookup(r.db, k) == Installed(db, p, probe, k)
  {
    match ProbeOf(p, probe)
    case Err(cause) => Outcome(db, Some(ProbeFailed(CommandName(p), cause)))
    case Ok(description) =>
      var o := UpdatePlugin(db, p.(description := description));
      if o.err.Some? then Outcome(o.db, Some(StorageFailed(o.err.value))) else o
  }

  /** Installing keeps the catalog invariant. */
  lemma InstallKeepsValid(db: Db, p: Plugin, probe: Probe)
    requires Valid(db)
    ensures Valid(Install(db, p, probe).db)
  {
    if ProbeOf(p, probe).Ok? {
      UpdatePluginKeepsValid(db, p.(description := ProbeOf(p, probe).value));
    }
  }

  /** Installing a plugin of an application keeps the store owned by it. */
  lemma InstallKeepsOwned(db: Db, p: Plugin, probe: Probe)
    requires OwnedBy(db, p.appName)
    ensures OwnedBy(Install(db, p, probe).db, p.appName)
  {
  }

  /** The call handed to the exec capability. */
  datatype ExecCall = ExecCall(binary: string, argv: seq<string>, env: seq<string>)

  /** What running a plugin did: the exec call made, if any, and the error. */
  datatype Launch = Launch(call: Option<ExecCall>, err: Option<Error>)

  /** Resolves the plugin's binary on the search path and execs it with the
      command name as argv[0], then `args`, and the environment verbatim. */
  function RunPlugin(p: Plugin, args: seq<string>, env: seq<string>, lookPath: LookPath, exec: ExecFn): (r: Launch)
    ensures lookPath(CommandName(p)).Err? ==>
      r == Launch(None, Some(BinaryNotFound(p.name, lookPath(CommandName(p)).error)))
    ensures lookPath(CommandName(p)).Ok? ==> r.call.Some?
    ensures r.call.Some? ==>
      && r.call.value.binary == lookPath(CommandName(p)).value
      && |r.call.value.argv| == |args| + 1
      && r.call.value.argv[0] == CommandName(p)
      && r.call.value.argv[1..] == args
      && r.call.value.env == env
    ensures r.call.Some? ==> (r.err.None? <==> exec(r.call.value.binary, r.call.value.argv, env).None?)
    ensures r.call.Some? && r.err.Some? ==>
      r.err.value == ExecFailed(p.name, r.call.value.argv, exec(r.call.value.binary, r.call.value.argv, env).value)
  {
    match lookPath(CommandName(p))
    case Err(cause) => Launch(None, Some(BinaryNotFound(p.name, cause)))
    case Ok(binary) =>
      var argv := [CommandName(p)] + args;
      assert argv[1..] == args;
      match exec(binary, argv, env)
      case Some(cause) => Launch(Some(ExecCall(binary, argv, env)), Some(ExecFailed(p.name, argv, cause)))
      case None => Launch(Some(ExecCall(binary, argv, env)), None)
  }
}

=== FILE: bucket.dfy ===
/** A bolt bucket: a key-value collection whose keys are unique and kept in
    ascending byte order, which is also the order `ForEach` visits them in. */
module Bucket {
  import opened Results
  import opened Text

  datatype Entry<V> = Entry(key: string, data: V)

  /** Keys strictly ascend, hence are also pairwise distinct. */
  predicate Sorted<V>(entries: seq<Entry<V>>)
  {
    forall i, j :: 0 <= i < j < |entries| ==> Below(entries[i].key, entries[j].key)
  }

  /** Every key of `entries` lies strictly above `lo`. */
  predicate Above<V>(lo: string, entries: seq<Entry<V>>)
  {
    forall i :: 0 <= i < |entries| ==> Below(lo, entries[i].key)
  }

  type Bucket<V> = entries: seq<Entry<V>> | Sorted(entries)

  /** Bucket lookup (bolt's `Get`): the value stored under `k`, if any. */
  function Get<V>(b: seq<Entry<V>>, k: string): (r: Option<V>)
    ensures r.Some? ==> exists i :: 0 <= i < |b| && b[i] == Entry(k, r.value)
    ensures r.None? <==> forall i :: 0 <= i < |b| ==> b[i].key != k
  {
    if |b| == 0 then None
    else if b[0].key == k then Some(b[0].data)
    else Get(b[1..], k)
  }

  /** In a sorted bucket the entry at index `i` is what `Get` finds for its key. */
  lemma {:induction false} GetAt<V>(b: Bucket<V>, i: nat)
    requires i < |b|
    ensures Get(b, b[i].key) == Some(b[i].data)
    decreases i
  {
    if i > 0 {
      assert Below(b[0].key, b[i].key);
      BelowIrreflexive(b[i].key);
      GetAt(b[1..], i - 1);
    }
  }

  /** Keys strictly ascend after prepending an entry whose key is below all of `b`. */
  lemma PrependSorted<V>(e: Entry<V>, b: Bucket<V>)
    requires Above(e.key, b)
    ensures Sorted([e] + b)
  {
  }

  /** A key below the first key of a sorted bucket is below every key of it. */
  lemma BelowFirstIsAbove<V>(lo: string, b: Bucket<V>)
    requires |b| > 0 && Below(lo, b[0].key)
    ensures Above(lo, b)
  {
    forall i | 0 < i < |b|
      ensures Below(lo, b[i].key)
    {
      BelowTransitive(lo, b[0].key, b[i].key);
    }
  }

  /** A key below every key of a bucket is not stored in it. */
  lemma AboveExcludes<V>(lo: string, b: seq<Entry<V>>)
    requires Above(lo, b)
    ensures Get(b, lo).None?
  {
    BelowIrreflexive(lo);
  }

  /** Bucket write (bolt's `Put`): inserts `k` at its place in key order, or
      replaces the value already stored under `k`. A bound below both the
      old keys and `k` stays below every key of the result. */
  function Put<V>(b: Bucket<V>, k: string, v: V): (r: Bucket<V>)
    ensures forall lo :: Above(lo, b) && Below(lo, k) ==> Above(lo, r)
    decreases |b|
  {
    if |b| == 0 then
      [Entry(k, v)]
    else if b[0].key == k then
      assert Above(k, b[1..]);
      PrependSorted(Entry(k, v), b[1..]);
      [Entry(k, v)] + b[1..]
    else if Below(k, b[0].key) then
      BelowFirstIsAbove(k, b);
      PrependSorted(Entry(k, v), b);
      [Entry(k, v)] + b
    else
      BelowTotal(k, b[0].key);
      var rest := Put(b[1..], k, v);
      assert Above(b[0].key, b[1..]);
      PrependSorted(b[0], rest);
      [b[0]] + rest
  }

  /** After `Put`, `k` maps to `v` and every other key keeps its value. */
  lemma {:induction false} PutGet<V>(b: Bucket<V>, k: string, v: V, k': string)
    ensures Get(Put(b, k, v), k') == if k' == k then Some(v) else Get(b, k')
    decreases |b|
  {
    var r := Put(b, k, v);
    if |b| == 0 {
    } else if b[0].key == k {
      if k' != k {
        assert Get(r, k') == Get(b[1..], k');
      }
    } else if Below(k, b[0].key) {
      if k' != k {
        assert Get(r, k') == Get(b, k');
      }
    } else {
      PutGet(b[1..], k, v, k');
    }
  }

  /** `Put` adds an entry exactly when the key was not stored before. */
  lemma {:induction false} PutLength<V>(b: Bucket<V>, k: string, v: V)
    ensures |Put(b, k, v)| == if Get(b, k).Some? then |b| else |b| + 1
    decreases |b|
  {
    if |b| > 0 && b[0].key != k && !Below(k, b[0].key) {
      PutLength(b[1..], k, v);
    } else if |b| > 0 && Below(k, b[0].key) {
      BelowFirstIsAbove(k, b);
      AboveExcludes(k, b);
    }
  }

  /** A bucket is determined by what it maps each key to: two buckets that
      agree on every lookup hold the same entries in the same order. */
  lemma {:induction false} SameContentsSameBucket<V>(a: Bucket<V>, b: Bucket<V>)
    requires forall k :: Get(a, k) == Get(b, k)
    ensures a == b
    decreases |a|
  {
    if |a| == 0 {
      if |b| > 0 {
        GetAt(b, 0);
        assert false;
      }
    } else if |b| == 0 {
      GetAt(a, 0);
      assert false;
    } else {
      var x, y := a[0].key, b[0].key;
      BelowTotal(x, y);
      if Below(x, y) {
        BelowFirstIsAbove(x, b);
        AboveExcludes(x, b);
        assert false;
      } else if Below(y, x) {
        BelowFirstIsAbove(y, a);
        AboveExcludes(y, a);
        assert false;
      }
      assert Get(a, x) == Some(a[0].data) && Get(b, x) == Some(b[0].data);
      forall k
        ensures Get(a[1..], k) == Get(b[1..], k)
      {
        if k == x {
          assert Above(x, a[1..]) && Above(x, b[1..]);
          AboveExcludes(x, a[1..]);
          AboveExcludes(x, b[1..]);
        } else {
          assert Get(a, k) == Get(a[1..], k) && Get(b, k) == Get(b[1..], k);
        }
      }
      SameContentsSameBucket(a[1..], b[1..]);
      assert a == [a[0]] + a[1..] && b == [b[0]] + b[1..];
    }
  }

  /** Writing the same key twice keeps only the second value (last write wins). */
  lemma PutPutSameKey<V>(b: Bucket<V>, k: string, v1: V, v2: V)
    ensures Put(Put(b, k, v1), k, v2) == Put(b, k, v2)
  {
    forall k' ensures Get(Put(Put(b, k, v1), k, v2), k') == Get(Put(b, k, v2), k') {
      PutGet(Put(b, k, v1), k, v2, k');
      PutGet(b, k, v1, k');
      PutGet(b, k, v2, k');
    }
    SameContentsSameBucket(Put(Put(b, k, v1), k, v2), Put(b, k, v2));
  }

  /** Writes to distinct keys commute: the bucket does not remember write order. */
  lemma PutPutCommute<V>(b: Bucket<V>, k1: string, v1: V, k2: string, v2: V)
    requires k1 != k2
    ensures Put(Put(b, k1, v1), k2, v2) == Put(Put(b, k2, v2), k1, v1)
  {
    var x, y := Put(Put(b, k1, v1), k2, v2), Put(Put(b, k2, v2), k1, v1);
    forall k ensures Get(x, k) == Get(y, k) {
      PutGet(Put(b, k1, v1), k2, v2, k);
      PutGet(b, k1, v1, k);
      PutGet(Put(b, k2, v2), k1, v1, k);
      PutGet(b, k2, v2, k);
    }
    SameContentsSameBucket(x, y);
  }

  /** Every entry `Put` leaves is the written one or an entry that was there before. */
  lemma {:induction false} PutEntries<V>(b: Bucket<V>, k: string, v: V)
    ensures forall e :: e in Put(b, k, v) ==> e == Entry(k, v) || e in b
    decreases |b|
  {
    if |b| > 0 && b[0].key != k && !Below(k, b[0].key) {
      PutEntries(b[1..], k, v);
    }
  }
}

=== FILE: dispatch.dfy ===
/** The plugin branch the gateway's tests expect but `Run` does not have: an
    action that is neither help nor install names a plugin, which is run when
    found; when it is missing, a notice and the help screen are printed and
    the invocation still succeeds. Built from the registry and action pieces;
    `Run` itself stays as written. */
module Dispatch {
  import opened Results
  import opened Bucket
  import opened Errors
  import opened Plugin
  import opened Store
  import opened Actions
  import opened Gateway
  import opened Views

  /** The notice detail when nothing was ever installed. */
  const NoPluginsInstalled := "There are no plugins installed"

  /** How an action name resolves against the store. */
  datatype Resolution = Found(plugin: Plugin) | Missing(details: string) | Broken(error: Error)

  /** Looks the action up in one read-only transaction: a store without a
      bucket and a bucket without the name are different explanations. */
  function Resolve(db: Db, name: string): (r: Resolution)
    ensures db.fault.Some? <==> r.Broken?
    ensures db.fault.None? && db.plugins.None? ==> r == Missing(NoPluginsInstalled)
    ensures db.fault.None? && db.plugins.Some? && Lookup(db, name).None? ==>
      r == Missing("Plugin '" + name + "' was not found")
    ensures r.Found? <==> db.fault.None? && Lookup(db, name).Some? && Lookup(db, name).value.Json?
    ensures r.Found? ==> Lookup(db, name) == Some(Json(r.plugin))
    ensures db.fault.None? && Lookup(db, name).Some? && Lookup(db, name).value.Malformed? ==>
      var data := Lookup(db, name).value;
      r == Missing(Message(UnmarshalFailed(name, data.raw, data.cause)))
  {
    if db.fault.Some? then Broken(StoreFailed(db.fault.value))
    else if db.plugins.None? then Missing(NoPluginsInstalled)
    else
      match PluginFrom(db.plugins.value, name)
      case Err(e) => Missing(Message(e))
      case Ok(p) => Found(p)
  }

  /** The explanation printed before falling back to the help screen, with the
      text the tests expect; `RunWithPlugins` and the lemmas after it state
      where it is written. */
  function Notice(g: Gateway, action: string, details: string): string
  {
    "[ERROR] Unable to find plugin '" + action + "'.\nTry installing it with '"
      + g.name + " " + InstallFlag + " " + action + "'.\nDetails: " + details + "\n\n"
  }

  /** What a dispatch did: its error, the database afterwards, the gateway's
      standard output, and the exec call made, if any. */
  datatype DispatchOutcome = DispatchOutcome(err: Option<Error>, db: Db, stdout: string, call: Option<ExecCall>)

  /** `Run` with the plugin branch added after the built-ins. */
  function RunWithPlugins(g: Gateway, db: Db, args: seq<string>, probe: Probe,
                          env: seq<string>, lookPath: LookPath, exec: ExecFn): (r: DispatchOutcome)
    requires |args| >= 1
    ensures IsHelp(args) || args[1] == InstallFlag ==>
      var o := Run(g, db, args, probe); r == DispatchOutcome(o.err, o.db, o.stdout, None)
    ensures !IsHelp(args) && args[1] != InstallFlag ==> r.db == db
    ensures !IsHelp(args) && args[1] != InstallFlag && Resolve(db, args[1]).Missing? ==>
      && r.call.None?
      && r.err == Help(g, db).err
      && r.stdout == Notice(g, args[1], Resolve(db, args[1]).details) + Help(g, db).stdout
    ensures !IsHelp(args) && args[1] != InstallFlag && Resolve(db, args[1]).Found? ==>
      var p := Resolve(db, args[1]).plugin;
      var l := RunPlugin(p, args[2..], env, lookPath, exec);
      r == DispatchOutcome(l.err, db, "", l.call)
  {
    if IsHelp(args) || args[1] == InstallFlag then
      var o := Run(g, db, args, probe);
      DispatchOutcome(o.err, o.db, o.stdout, None)
    else
      match Resolve(db, args[1])
      case Broken(e) => DispatchOutcome(Some(e), db, "", None)
      case Missing(details) =>
        var h := Help(g, db);
        DispatchOutcome(h.err, db, Notice(g, args[1], details) + h.stdout, None)
      case Found(p) =>
        var l := RunPlugin(p, args[2..], env, lookPath, exec);
        DispatchOutcome(l.err, db, "", l.call)
  }

  /** Built-in actions win: help and install never run a plugin, even one
      installed under the action's own name. */
  lemma BuiltinsShadowPlugins(g: Gateway, db: Db, args: seq<string>, probe: Probe,
                              env: seq<string>, lookPath: LookPath, exec: ExecFn)
    requires |args| >= 2 && args[1] in {"help", "--help", InstallFlag}
    requires db.fault.None? && Lookup(db, args[1]).Some? && Lookup(db, args[1]).value.Json?
    ensures Resolve(db, args[1]).Found?
    ensures RunWithPlugins(g, db, args, probe, env, lookPath, exec).call.None?
  {
  }

  /** With nothing ever installed, an unknown action prints the "no plugins"
      notice and then the help screen, and the invocation succeeds. */
  lemma MissingWithNoPlugins(g: Gateway, args: seq<string>, probe: Probe,
                             env: seq<string>, lookPath: LookPath, exec: ExecFn)
    requires |args| >= 2 && !IsHelp(args) && args[1] != InstallFlag
    ensures var r := RunWithPlugins(g, Empty, args, probe, env, lookPath, exec);
      && r.err.None? && r.call.None? && r.db == Empty
      && r.stdout == Notice(g, args[1], NoPluginsInstalled) + HelpView(g.name, g.description, HelpEntry)
  {
  }

  /** With plugins installed but not the one asked for, the notice carries the
      lookup's not-found message instead, still followed by the help screen. */
  lemma MissingAmongPlugins(g: Gateway, db: Db, args: seq<string>, probe: Probe,
                            env: seq<string>, lookPath: LookPath, exec: ExecFn)
    requires |args| >= 2 && !IsHelp(args) && args[1] != InstallFlag
    requires db.fault.None? && db.plugins.Some? && Lookup(db, args[1]).None?
    ensures var r := RunWithPlugins(g, db, args, probe, env, lookPath, exec);
      && r.call.None? && r.db == db
      && r.stdout == Notice(g, args[1], "Plugin '" + args[1] + "' was not found") + Help(g, db).stdout
  {
  }

  /** A found plugin is exec'd as `<app>-<name>` followed by the remaining arguments. */
  lemma FoundPluginIsExecuted(g: Gateway, db: Db, args: seq<string>, probe: Probe,
                              env: seq<string>, lookPath: LookPath, exec: ExecFn)
    requires |args| >= 2 && !IsHelp(args) && args[1] != InstallFlag
    requires db.fault.None? && Valid(db) && Lookup(db, args[1]).Some? && Lookup(db, args[1]).value.Json?
    requires lookPath(g.name + "-" + args[1]).Ok?
    requires Lookup(db, args[1]).value.record.appName == g.name
    ensures var r := RunWithPlugins(g, db, args, probe, env, lookPath, exec);
      && r.call.Some?
      && r.call.value.argv == [g.name + "-" + args[1]] + args[2..]
      && r.call.value.env == env
  {
    var b := db.plugins.value;
    var i :| 0 <= i < |b| && b[i] == Entry(args[1], Lookup(db, args[1]).value);
    assert b[i] in b;
  }

  /** A plugin installed by an earlier invocation is exec'd by a later one as
      `<app>-<name>`: the install run keeps the store a catalog of this
      application, which is what running a found plugin relies on. */
  lemma InstalledPluginIsExecuted(g: Gateway, db: Db, names: seq<string>, args: seq<string>, probe: Probe,
                                  env: seq<string>, lookPath: LookPath, exec: ExecFn)
    requires db.fault.None? && Valid(db) && OwnedBy(db, g.name)
    requires |args| >= 2 && !IsHelp(args) && args[1] != InstallFlag
    requires args[1] in names && Installable(g.name, args[1], probe)
    requires lookPath(g.name + "-" + args[1]).Ok?
    ensures var installed := Run(g, db, [args[0], InstallFlag] + names, probe).db;
      var r := RunWithPlugins(g, installed, args, probe, env, lookPath, exec);
      && r.call.Some?
      && r.call.value.argv == [g.name + "-" + args[1]] + args[2..]
      && r.call.value.env == env
  {
    var install := [args[0], InstallFlag] + names;
    assert install[1] == InstallFlag && install[2..] == names;
    var installed := Run(g, db, install, probe).db;
    RunKeepsCatalog(g, db, install, probe);
    InstallEachEffect(db, g.name, names, probe);
    assert Lookup(installed, args[1]) == AfterBatch(db, g.name, names, probe, args[1]);
    FoundPluginIsExecuted(g, installed, args, probe, env, lookPath, exec);
  }

  /** Undecodable data under the action's name: the notice carries the
      decoder's message, and the help screen after it then fails on the
      listing's nil entry, so the notice is all that is written. */
  lemma UndecodableActionNotice(g: Gateway, db: Db, args: seq<string>, probe: Probe,
                                env: seq<string>, lookPath: LookPath, exec: ExecFn, raw: string, cause: string)
    requires |args| >= 2 && !IsHelp(args) && args[1] != InstallFlag
    requires db.fault.None? && Lookup(db, args[1]) == Some(Malformed(raw, cause))
    ensures var r := RunWithPlugins(g, db, args, probe, env, lookPath, exec);
      && r.call.None? && r.db == db
      && r.err == Some(CommandListFailed(NilPluginName))
      && r.stdout == Notice(g, args[1], Message(UnmarshalFailed(args[1], raw, cause)))
  {
    var b := db.plugins.value;
    var i :| 0 <= i < |b| && b[i] == Entry(args[1], Malformed(raw, cause));
    CorruptEntryBreaksHelp(g, db, i);
    var notice := Notice(g, args[1], Message(UnmarshalFailed(args[1], raw, cause)));
    assert notice + "" == notice;
  }
}

=== FILE: errors.dfy ===
/** The errors the core returns, one constructor per `fmt.Errorf` site, and the
    message text each one prints as. */
module Errors {
  import opened Text

  datatype Error =
      /** An error of bolt itself, by its own text ("database not open", "key required", ...). */
    | StoreFailed(cause: string)
      /** `UpdatePlugin` could not save into the bucket. */
    | SaveToBucketFailed(inner: Error)
      /** `pluginFrom` found no data under the name. */
    | NotFound(name: string)
      /** The data stored under `name` is not a JSON plugin record; `raw` is how
          the data prints and `cause` is the JSON decoder's complaint. */
    | UnmarshalFailed(name: string, raw: string, cause: string)
      /** The metadata probe of `command` failed (launch failure or non-zero exit). */
    | ProbeFailed(command: string, cause: string)
      /** `install` could not record the probed plugin. */
    | StorageFailed(inner: Error)
      /** The plugin's binary is not on the search path. */
    | BinaryNotFound(name: string, cause: string)
      /** The exec capability failed for the plugin. */
    | ExecFailed(name: string, argv: seq<string>, cause: string)
      /** The command-list template stopped on a nil plugin. */
    | CommandListFailed(cause: string)

  /** Go's `%+v` rendering of a string slice: the elements space-separated in brackets. */
  function ShowArgs(argv: seq<string>): string
  {
    "[" + Join(argv, " ") + "]"
  }

  /** The text the error prints as. */
  function Message(e: Error): (text: string)
    ensures e.StoreFailed? ==> text == e.cause
    ensures e.SaveToBucketFailed? || e.StorageFailed? ==>
      |text| > |Message(e.inner)| && text[|text| - |Message(e.inner)|..] == Message(e.inner)
  {
    match e
    case StoreFailed(cause) => cause
    case SaveToBucketFailed(inner) => "Unable to save plugin to bucket 'plugins' - " + Message(inner)
    case NotFound(name) => "Plugin '" + name + "' was not found"
    case UnmarshalFailed(name, raw, cause) =>
      "Unable to unmarshal plugin " + name + " data " + raw + " - " + cause
    case ProbeFailed(command, cause) =>
      "'" + command + " --plugged-description' returned an error - " + cause
    case StorageFailed(inner) => "Unable to save plugin to storage - " + Message(inner)
    case BinaryNotFound(name, cause) => "Unable to find binary for plugin '" + name + "' - " + cause
    case ExecFailed(name, argv, cause) =>
      "Plugin '" + name + "' failed to exec with args: " + ShowArgs(argv) + " - " + cause
    case CommandListFailed(cause) => "Unable to execute commandList template on <view> - " + cause
  }

  /** The not-found message quotes the name verbatim: it reads back out. */
  lemma NotFoundQuotesName(name: string)
    ensures var text := Message(NotFound(name));
      |text| == |name| + 23 && text[8..|text| - 15] == name
  {
    ConcatMiddle("Plugin '", name, "' was not found");
  }
}

=== FILE: gateway.dfy ===
/** The gateway application and its argument dispatcher `Run`, as written:
    the help path, the batch-install path, and a fall-through that does
    nothing. An empty argument vector, on which `Run` panics, is excluded. */
module Gateway {
  import opened Results
  import opened Text
  import opened Bucket
  import opened Errors
  import opened Plugin
  import opened Store
  import opened Views
  import opened Actions

  /** The application's configuration as the dispatcher uses it. */
  datatype Gateway = Gateway(name: string, description: string)

  /** What an invocation did: its error, the database afterwards, and what it
      wrote to the gateway's standard output. */
  datatype RunOutcome = RunOutcome(err: Option<Error>, db: Db, stdout: string)

  /** A batch install: the database afterwards and each name's error, in order. */
  datatype Batch = Batch(db: Db, errors: seq<Option<Error>>)

  const InstallFlag := "--plugged-install"

  /** The help check: no action at all, or the word or flag for help. */
  predicate IsHelp(args: seq<string>)
    requires |args| >= 1
  {
    |args| == 1 || args[1] == "help" || args[1] == "--help"
  }

  /** The help path: lists the plugins, renders the command list, then the
      help screen around it. Any error stops it before anything is written. */
  function Help(g: Gateway, db: Db): (r: RunOutcome)
    ensures r.db == db
    ensures r.err.None? <==> Plugins(db).Ok? && forall i :: 0 <= i < |Plugins(db).value| ==> Plugins(db).value[i].Some?
    ensures Plugins(db).Err? ==> r.err == Some(Plugins(db).error)
    ensures r.err.Some? ==> r.stdout == ""
    ensures r.err.None? ==>
      r.stdout == HelpView(g.name, g.description, CommandList(Present(Plugins(db).value)))
  {
    match Plugins(db)
    case Err(e) => RunOutcome(Some(e), db, "")
    case Ok(list) =>
      match RenderCommandList(list)
      case Err(e) => RunOutcome(Some(e), db, "")
      case Ok(commands) => RunOutcome(None, db, HelpView(g.name, g.description, commands))
  }

  /** The install loop: every name is attempted in order on the store the
      previous attempts left; a failure is recorded and the loop goes on. */
  function InstallEach(db: Db, appName: string, names: seq<string>, probe: Probe): (r: Batch)
    ensures |r.errors| == |names|
    decreases |names|
  {
    if |names| == 0 then Batch(db, [])
    else
      var o := Install(db, NewPlugin(appName, names[0]), probe);
      var rest := InstallEach(o.db, appName, names[1..], probe);
      Batch(rest.db, [o.err] + rest.errors)
  }

  /** Runs the gateway on `args` (args[0] is the program name). */
  function Run(g: Gateway, db: Db, args: seq<string>, probe: Probe): (r: RunOutcome)
    requires |args| >= 1
    ensures IsHelp(args) ==> r == Help(g, db)
    ensures !IsHelp(args) ==> r.err.None? && r.stdout == ""
    ensures !IsHelp(args) && args[1] == InstallFlag ==> r.db == InstallEach(db, g.name, args[2..], probe).db
    ensures !IsHelp(args) && args[1] != InstallFlag ==> r.db == db
  {
    if IsHelp(args) then Help(g, db)
    else if args[1] == InstallFlag then
      var batch := InstallEach(db, g.name, args[2..], probe);
      RunOutcome(None, batch.db, "")
    else RunOutcome(None, db, "")
  }

  /** The names are installed strictly in order: a batch is its first part
      followed by its second part run on the store the first part left. */
  lemma {:induction false} InstallEachSplits(db: Db, appName: string, names1: seq<string>, names2: seq<string>, probe: Probe)
    ensures var first := InstallEach(db, appName, names1, probe);
      var second := InstallEach(first.db, appName, names2, probe);
      InstallEach(db, appName, names1 + names2, probe) == Batch(second.db, first.errors + second.errors)
    decreases |names1|
  {
    if |names1| == 0 {
      assert names1 + names2 == names2;
    } else {
      var all := names1 + names2;
      assert all[0] == names1[0] && all[1..] == names1[1..] + names2;
      var o := Install(db, NewPlugin(appName, names1[0]), probe);
      InstallEachSplits(o.db, appName, names1[1..], names2, probe);
      var rest1 := InstallEach(o.db, appName, names1[1..], probe);
      var second := InstallEach(rest1.db, appName, names2, probe);
      assert [o.err] + (rest1.errors + second.errors) == ([o.err] + rest1.errors) + second.errors;
    }
  }

  /** A batch install keeps the catalog invariant. */
  lemma {:induction false} InstallEachKeepsValid(db: Db, appName: string, names: seq<string>, probe: Probe)
    requires Valid(db)
    ensures Valid(InstallEach(db, appName, names, probe).db)
    decreases |names|
  {
    if |names| > 0 {
      var p := NewPlugin(appName, names[0]);
      InstallKeepsValid(db, p, probe);
      InstallEachKeepsValid(Install(db, p, probe).db, appName, names[1..], probe);
    }
  }

  /** A batch install of one application keeps the store owned by it. */
  lemma {:induction false} InstallEachKeepsOwned(db: Db, appName: string, names: seq<string>, probe: Probe)
    requires OwnedBy(db, appName)
    ensures OwnedBy(InstallEach(db, appName, names, probe).db, appName)
    decreases |names|
  {
    if |names| > 0 {
      var p := NewPlugin(appName, names[0]);
      InstallKeepsOwned(db, p, probe);
      InstallEachKeepsOwned(Install(db, p, probe).db, appName, names[1..], probe);
    }
  }

  /** Every invocation keeps the catalog invariant and leaves the store owned
      by the gateway, so any store built by a series of runs from an empty one
      has both. */
  lemma RunKeepsCatalog(g: Gateway, db: Db, args: seq<string>, probe: Probe)
    requires |args| >= 1 && Valid(db) && OwnedBy(db, g.name)
    ensures Valid(Run(g, db, args, probe).db) && OwnedBy(Run(g, db, args, probe).db, g.name)
  {
    if !IsHelp(args) && args[1] == InstallFlag {
      InstallEachKeepsValid(db, g.name, args[2..], probe);
      InstallEachKeepsOwned(db, g.name, args[2..], probe);
    }
  }

  /** The empty store has both catalog invariants. */
  lemma EmptyIsCatalog(appName: string)
    ensures Valid(Empty) && OwnedBy(Empty, appName)
  {
  }

  /** After any invocation on a catalog store, the help path's listing comes
      out in strictly ascending name order, whatever order the plugins were
      installed in and however many runs installed them. */
  lemma RunListingAscending(g: Gateway, db: Db, args: seq<string>, probe: Probe)
    requires |args| >= 1 && Valid(db) && OwnedBy(db, g.name)
    ensures var list := Plugins(Run(g, db, args, probe).db);
      list.Ok? ==> forall i, j :: 0 <= i < j < |list.value| && list.value[i].Some? && list.value[j].Some? ==>
        Below(list.value[i].value.name, list.value[j].value.name)
  {
    var after := Run(g, db, args, probe).db;
    RunKeepsCatalog(g, db, args, probe);
    if after.fault.None? && after.plugins.Some? {
      ListingAscending(after.plugins.value);
    }
  }

  /** A name the install path can record: non-empty, and its probe answers. */
  predicate Installable(appName: string, name: string, probe: Probe)
  {
    name != "" && ProbeOf(NewPlugin(appName, name), probe).Ok?
  }

  /** The record an installable name ends up with. */
  function Recorded(appName: string, name: string, probe: Probe): Blob
    requires Installable(appName, name, probe)
  {
    Described(NewPlugin(appName, name), probe)
  }

  /** What the store holds under `k` after installing `names` into `db`. */
  function AfterBatch(db: Db, appName: string, names: seq<string>, probe: Probe, k: string): Option<Blob>
  {
    if k in names && Installable(appName, k, probe) then Some(Recorded(appName, k, probe)) else Lookup(db, k)
  }

  /** The batch install on a working store, per key: a name whose probe
      answers holds its described record, wherever it came in the batch and
      whatever failed around it; every other key keeps its old data. Name `i`
      failed exactly when it was not installable. */
  lemma {:induction false} InstallEachEffect(db: Db, appName: string, names: seq<string>, probe: Probe)
    requires db.fault.None?
    ensures var r := InstallEach(db, appName, names, probe);
      && r.db.fault.None?
      && (r.db.plugins.Some? <==> db.plugins.Some? || exists n :: n in names && Installable(appName, n, probe))
      && (forall k :: Lookup(r.db, k) == AfterBatch(db, appName, names, probe, k))
      && (forall i :: 0 <= i < |names| ==> (r.errors[i].None? <==> Installable(appName, names[i], probe)))
    decreases |names|
  {
    var r := InstallEach(db, appName, names, probe);
    if |names| > 0 {
      var o := Install(db, NewPlugin(appName, names[0]), probe);
      InstallEachEffect(o.db, appName, names[1..], probe);
      var rest := InstallEach(o.db, appName, names[1..], probe);
      assert r.db == rest.db && r.errors == [o.err] + rest.errors;
      assert o.err.None? <==> Installable(appName, names[0], probe);
      assert o.db.plugins.Some? <==> db.plugins.Some? || Installable(appName, names[0], probe);
      forall k ensures Lookup(r.db, k) == AfterBatch(db, appName, names, probe, k) {
        assert k in names <==> k == names[0] || k in names[1..];
      }
      assert forall n :: n in names <==> n == names[0] || n in names[1..];
    }
  }

  /** A batch on a failing store changes nothing and every name fails. */
  lemma {:induction false} InstallEachUnderFault(db: Db, appName: string, names: seq<string>, probe: Probe)
    requires db.fault.Some?
    ensures InstallEach(db, appName, names, probe).db == db
    ensures forall i :: 0 <= i < |names| ==> InstallEach(db, appName, names, probe).errors[i].Some?
    decreases |names|
  {
    if |names| > 0 {
      InstallEachUnderFault(db, appName, names[1..], probe);
    }
  }

  /** Install order does not matter: batches over the same set of names leave
      the same store, bucket layout included. */
  lemma BatchOrderIrrelevant(db: Db, appName: string, names1: seq<string>, names2: seq<string>, probe: Probe)
    requires (set n | n in names1) == (set n | n in names2)
    ensures InstallEach(db, appName, names1, probe).db == InstallEach(db, appName, names2, probe).db
  {
    var r1, r2 := InstallEach(db, appName, names1, probe).db, InstallEach(db, appName, names2, probe).db;
    if db.fault.None? {
      InstallEachEffect(db, appName, names1, probe);
      InstallEachEffect(db, appName, names2, probe);
      var s1, s2 := set n | n in names1, set n | n in names2;
      assert s1 == s2;
      assert forall n :: n in names1 <==> n in names2 by {
        forall n ensures n in names1 <==> n in names2 {
          assert n in names1 <==> n in s1;
          assert n in names2 <==> n in s2;
        }
      }
      assert r1.plugins.Some? <==> r2.plugins.Some?;
      if r1.plugins.Some? {
        forall k ensures Get(r1.plugins.value, k) == Get(r2.plugins.value, k) {
          assert Lookup(r1, k) == AfterBatch(db, appName, names1, probe, k);
          assert Lookup(r2, k) == AfterBatch(db, appName, names2, probe, k);
        }
        SameContentsSameBucket(r1.plugins.value, r2.plugins.value);
      }
    } else {
      InstallEachUnderFault(db, appName, names1, probe);
      InstallEachUnderFault(db, appName, names2, probe);
    }
  }

  /** Installing a name in two runs keeps one record, the second install's. */
  lemma InstallTwiceKeepsOne(db: Db, appName: string, name: string, probe1: Probe, probe2: Probe)
    requires db.fault.None? && Installable(appName, name, probe1) && Installable(appName, name, probe2)
    ensures var once := InstallEach(db, appName, [name], probe2).db;
      InstallEach(InstallEach(db, appName, [name], probe1).db, appName, [name], probe2).db == once
  {
    var first := InstallEach(db, appName, [name], probe1).db;
    var twice := InstallEach(first, appName, [name], probe2).db;
    var once := InstallEach(db, appName, [name], probe2).db;
    InstallEachEffect(db, appName, [name], probe1);
    InstallEachEffect(first, appName, [name], probe2);
    InstallEachEffect(db, appName, [name], probe2);
    SameContentsSameBucket(twice.plugins.value, once.plugins.value);
  }

  /** A corrupt record anywhere in the bucket makes the listing hold a nil
      entry, and the command-list template then stops on it: the help path
      fails and writes nothing. */
  lemma CorruptEntryBreaksHelp(g: Gateway, db: Db, i: nat)
    requires db.fault.None? && db.plugins.Some?
    requires i < |db.plugins.value| && db.plugins.value[i].data.Malformed?
    ensures Help(g, db) == RunOutcome(Some(CommandListFailed(NilPluginName)), db, "")
  {
    var b := db.plugins.value;
    GetAt(b, i);
    assert Plugins(db).value[i].None?;
  }

  /** After a batch into a fresh store, the bucket holds exactly the batch's
      installable names, each with its described record. */
  lemma FreshBatchBucket(appName: string, names: seq<string>, probe: Probe)
    ensures var db := InstallEach(Empty, appName, names, probe).db;
      && db.fault.None?
      && (db.plugins.Some? ==> forall i :: 0 <= i < |db.plugins.value| ==>
            && db.plugins.value[i].key in names
            && Installable(appName, db.plugins.value[i].key, probe)
            && db.plugins.value[i].data == Recorded(appName, db.plugins.value[i].key, probe))
      && (forall n :: n in names && Installable(appName, n, probe) ==>
            db.plugins.Some? && exists i :: 0 <= i < |db.plugins.value| && db.plugins.value[i].key == n)
  {
    var db := InstallEach(Empty, appName, names, probe).db;
    InstallEachEffect(Empty, appName, names, probe);
    if db.plugins.Some? {
      var b := db.plugins.value;
      forall i | 0 <= i < |b|
        ensures b[i].key in names && Installable(appName, b[i].key, probe)
        ensures b[i].data == Recorded(appName, b[i].key, probe)
      {
        GetAt(b, i);
        assert Lookup(db, b[i].key) == AfterBatch(Empty, appName, names, probe, b[i].key);
      }
    }
    forall n | n in names && Installable(appName, n, probe)
      ensures db.plugins.Some? && exists i :: 0 <= i < |db.plugins.value| && db.plugins.value[i].key == n
    {
      assert Lookup(db, n) == AfterBatch(Empty, appName, names, probe, n);
    }
  }

  /** Installing a batch of installable names into a fresh store and listing
      gives back exactly those names, each with the description its probe
      printed, in strictly ascending name order, none of them nil. */
  lemma InstalledListing(appName: string, names: seq<string>, probe: Probe)
    requires forall n :: n in names ==> Installable(appName, n, probe)
    ensures var list := Plugins(InstallEach(Empty, appName, names, probe).db);
      && list.Ok?
      && (forall i :: 0 <= i < |list.value| ==> list.value[i].Some?)
      && (forall i :: 0 <= i < |list.value| ==>
            && list.value[i].value.name in names
            && Json(list.value[i].value) == Recorded(appName, list.value[i].value.name, probe))
      && (forall i, j :: 0 <= i < j < |list.value| ==> Below(list.value[i].value.name, list.value[j].value.name))
      && (forall n :: n in names ==> exists i :: 0 <= i < |list.value| && list.value[i].value.name == n)
  {
    var db := InstallEach(Empty, appName, names, probe).db;
    FreshBatchBucket(appName, names, probe);
    var list := Plugins(db).value;
    if db.plugins.Some? {
      var b := db.plugins.value;
      forall i | 0 <= i < |b|
        ensures list[i] == Some(b[i].data.record) && b[i].data.record.name == b[i].key
      {
        GetAt(b, i);
      }
      forall n | n in names
        ensures exists i :: 0 <= i < |list| && list[i].value.name == n
      {
        var i :| 0 <= i < |b| && b[i].key == n;
        assert list[i].value.name == n;
      }
    }
  }
}

=== FILE: plugin.dfy ===
/** Plugin records and the bucket-level registry operations: building a
    record, the JSON codec, the tolerant listing, the strict lookup and the
    keyed write. */
module Plugin {
  import opened Results
  import opened Text
  import opened Bucket
  import opened Errors

  /** One installed external command. */
  datatype Plugin = Plugin(name: string, description: string, appName: string)

  /** The bytes stored under a key, as the JSON decoder sees them: either data
      it accepts, standing for the record it decodes to, or data it rejects. */
  datatype Blob = Json(record: Plugin) | Malformed(raw: string, cause: string)

  /** bolt's error for a write with an empty key. */
  const KeyRequired := "key required"

  /** A fresh record for plugin `name` of application `appName`, not yet described. */
  function NewPlugin(appName: string, name: string): (p: Plugin)
    ensures p.name == name && p.appName == appName
    ensures p.description == ""
  {
    Plugin(name, "", appName)
  }

  /** JSON decoding of the data stored under `name`. */
  function Decode(data: Blob, name: string): (r: Result<Plugin, Error>)
    ensures r.Ok? <==> data.Json?
    ensures r.Ok? ==> data == Json(r.value)
    ensures data.Malformed? ==> r == Err(UnmarshalFailed(name, data.raw, data.cause))
  {
    match data
    case Json(p) => Ok(p)
    case Malformed(raw, cause) => Err(UnmarshalFailed(name, raw, cause))
  }

  /** JSON encoding of a record; a record of three strings always encodes,
      and decodes back to itself. */
  function Encode(p: Plugin): (data: Blob)
    ensures Decode(data, p.name) == Ok(p)
    ensures forall name :: Decode(data, name).Ok?
  {
    Json(p)
  }

  /** Every decodable entry holds the record of the plugin named by its key,
      as `Save` leaves it. */
  predicate Faithful(b: seq<Entry<Blob>>)
  {
    forall e :: e in b && e.data.Json? ==> e.data.record.name == e.key
  }

  /** The tolerant listing: one entry per stored key, in the bucket's key
      order; data that does not decode becomes a nil entry instead of being
      skipped, and never makes the listing fail. */
  function ListPlugins(b: seq<Entry<Blob>>): (r: seq<Option<Plugin>>)
    ensures |r| == |b|
    ensures forall i :: 0 <= i < |b| ==> r[i] == Decode(b[i].data, b[i].key).ToOption()
    ensures forall i :: 0 <= i < |b| ==> (r[i].None? <==> b[i].data.Malformed?)
  {
    if |b| == 0 then []
    else [Decode(b[0].data, b[0].key).ToOption()] + ListPlugins(b[1..])
  }

  /** The strict lookup: the record stored under `name`; absent data is the
      fixed not-found error and undecodable data is a decode error. */
  function PluginFrom(b: seq<Entry<Blob>>, name: string): (r: Result<Plugin, Error>)
    ensures Get(b, name).None? ==> r == Err(NotFound(name))
    ensures Get(b, name).None? ==> Message(r.error) == "Plugin '" + name + "' was not found"
    ensures r.Ok? <==> Get(b, name).Some? && Get(b, name).value.Json?
    ensures r.Ok? ==> Get(b, name) == Some(Encode(r.value))
    ensures r.Err? && Get(b, name).Some? ==> r.error.UnmarshalFailed? && r.error.name == name
  {
    match Get(b, name)
    case None => Err(NotFound(name))
    case Some(data) => Decode(data, name)
  }

  /** The keyed write: stores the encoded record under its name, replacing any
      earlier record of that name; bolt refuses an empty key. */
  function Save(b: Bucket<Blob>, p: Plugin): (r: Result<Bucket<Blob>, Error>)
    ensures r.Err? <==> p.name == ""
    ensures r.Err? ==> Message(r.error) == KeyRequired
    ensures r.Ok? ==> forall k :: Get(r.value, k) == if k == p.name then Some(Encode(p)) else Get(b, k)
  {
    if p.name == "" then Err(StoreFailed(KeyRequired))
    else
      var b' := Put(b, p.name, Encode(p));
      assert forall k :: Get(b', k) == if k == p.name then Some(Encode(p)) else Get(b, k) by {
        forall k { PutGet(b, p.name, Encode(p), k); }
      }
      Ok(b')
  }

  /** A saved record is what the strict lookup then returns. */
  lemma SaveThenLookup(b: Bucket<Blob>, p: Plugin)
    requires p.name != ""
    ensures Save(b, p).Ok? && PluginFrom(Save(b, p).value, p.name) == Ok(p)
  {
  }

  /** Saving two records of the same name keeps only the second. */
  lemma SaveTwiceKeepsSecond(b: Bucket<Blob>, p1: Plugin, p2: Plugin)
    requires p1.name == p2.name != ""
    ensures Save(Save(b, p1).value, p2) == Save(b, p2)
  {
    PutPutSameKey(b, p1.name, Encode(p1), Encode(p2));
  }

  /** Saving keeps every decodable entry named after its key. */
  lemma {:induction false} SaveKeepsFaithful(b: Bucket<Blob>, p: Plugin)
    requires Faithful(b) && p.name != ""
    ensures Faithful(Save(b, p).value)
  {
    PutEntries(b, p.name, Encode(p));
  }

  /** The listing and the strict lookup agree: the listing's entry for a key is
      the lookup's record, or nil exactly when the lookup fails. */
  lemma ListingAgreesWithLookup(b: Bucket<Blob>, i: nat)
    requires i < |b|
    ensures ListPlugins(b)[i] == PluginFrom(b, b[i].key).ToOption()
  {
    GetAt(b, i);
  }

  /** In a faithful bucket the listed records come out in strictly ascending
      name order, whatever order they were written in. */
  lemma ListingAscending(b: Bucket<Blob>)
    requires Faithful(b)
    ensures forall i, j :: 0 <= i < j < |b| && ListPlugins(b)[i].Some? && ListPlugins(b)[j].Some? ==>
      Below(ListPlugins(b)[i].value.name, ListPlugins(b)[j].value.name)
  {
    var r := ListPlugins(b);
    forall i, j | 0 <= i < j < |b| && r[i].Some? && r[j].Some?
      ensures Below(r[i].value.name, r[j].value.name)
    {
      assert b[i] in b && b[j] in b;
    }
  }
}

=== FILE: results.dfy ===
/** Failure-carrying datatypes shared by the whole model. */
module Results {

  /** A value that may be absent; stands for Go's nil pointers and nil errors. */
  datatype Option<+T> = None | Some(value: T)

  /** Either a value or an error; stands for Go's `(value, error)` return pairs. */
  datatype Result<+T, +E> = Ok(value: T) | Err(error: E)
  {
    /** The value, if any, dropping the error. */
    function ToOption(): Option<T>
    {
      match this
      case Ok(v) => Some(v)
      case Err(_) => None
    }
  }
}

=== FILE: scenarios.dfy ===
/** The gateway test scenarios, replayed on the model with the test's plugin
    scripts as the probe and exec oracles. Command lists are compared before
    the tabwriter aligns their columns. */
module Scenarios {
  import opened Results
  import opened Text
  import opened Bucket
  import opened Errors
  import opened Plugin
  import opened Store
  import opened Views
  import opened Actions
  import opened Gateway
  import opened Dispatch

  const App := Gateway("exampleapp", "An example CLI application.")

  /** The test's plugin scripts: `find` answers the probe flag, `activate`
      prints its description whatever it is asked; nothing else is on the path. */
  function TestProbe(command: string, args: seq<string>): Result<string, string>
  {
    if command == "exampleapp-find" && args == [DescriptionFlag] then Ok("Find some stuff.")
    else if command == "exampleapp-activate" then Ok("Activate stuff.")
    else Err("executable file not found in $PATH")
  }

  /** The search path of the tests is `./tmp/bin`; `LookPath` joins it with the
      command name, which drops the leading `./`. */
  function TestLookPath(command: string): Result<string, string>
  {
    if command == "exampleapp-find" then Ok("tmp/bin/exampleapp-find")
    else if command == "exampleapp-activate" then Ok("tmp/bin/exampleapp-activate")
    else Err("executable file not found in $PATH")
  }

  /** The tests' exec capability: every launch succeeds. */
  function TestExec(binary: string, argv: seq<string>, env: seq<string>): Option<string>
  {
    None
  }

  /** The test application's help screen around a command list. */
  function Screen(commands: string): string
  {
    HelpView(App.name, App.description, commands)
  }

  /** "default message without any plugins", "help message without any
      plugins" and "--help message without any plugins". */
  lemma DefaultMessageWithoutPlugins()
    ensures Run(App, Empty, ["exampleapp"], TestProbe) == RunOutcome(None, Empty, Screen(HelpEntry))
    ensures Run(App, Empty, ["exampleapp", "help"], TestProbe) == RunOutcome(None, Empty, Screen(HelpEntry))
    ensures Run(App, Empty, ["exampleapp", "--help"], TestProbe) == RunOutcome(None, Empty, Screen(HelpEntry))
  {
    assert Plugins(Empty) == Ok([]);
    assert Present([]) == [];
    assert Help(App, Empty) == RunOutcome(None, Empty, Screen(HelpEntry));
  }

  const Find := Plugin("find", "Find some stuff.", "exampleapp")
  const Activate := Plugin("activate", "Activate stuff.", "exampleapp")

  /** The test's expected command-list line for `activate`, before column alignment. */
  lemma ActivateLine()
    ensures EntryText(Activate) == "- activate\t - Activate stuff."
  {
    assert EntryText(Activate) == "- " + "activate" + "\t - " + "Activate stuff.";
  }

  /** The test's expected command-list line for `find`, before column alignment. */
  lemma FindLine()
    ensures EntryText(Find) == "- find\t - Find some stuff."
  {
    assert EntryText(Find) == "- " + "find" + "\t - " + "Find some stuff.";
  }

  /** The tests' probe prints each plugin's description. */
  lemma ProbesAnswer()
    ensures ProbeOf(NewPlugin("exampleapp", "find"), TestProbe) == Ok("Find some stuff.")
    ensures ProbeOf(NewPlugin("exampleapp", "activate"), TestProbe) == Ok("Activate stuff.")
  {
    assert CommandName(NewPlugin("exampleapp", "find")) == "exampleapp-find";
    assert CommandName(NewPlugin("exampleapp", "activate")) == "exampleapp-activate";
  }

  /** The store after installing `find` alone. */
  const OnlyFind := Db(None, Some([Entry("find", Json(Find))]))

  /** The store after installing both test plugins, in either order. */
  const Both := Db(None, Some([Entry("activate", Json(Activate)), Entry("find", Json(Find))]))

  lemma InstallFindIntoEmpty()
    ensures Run(App, Empty, ["exampleapp", "--plugged-install", "find"], TestProbe) == RunOutcome(None, OnlyFind, "")
  {
    ProbesAnswer();
    assert ["exampleapp", "--plugged-install", "find"][2..] == ["find"];
    var o := Install(Empty, NewPlugin("exampleapp", "find"), TestProbe);
    assert o.db == OnlyFind;
  }

  /** "default message with one plugin": the help screen lists `find`.
      Here and below the argument vector is a parameter pinned by `requires`
      rather than a literal in the `ensures`, so the verifier does not
      evaluate the whole run on literal strings. */
  lemma HelpWithFind(args: seq<string>)
    requires args == ["exampleapp"]
    ensures Run(App, OnlyFind, args, TestProbe) == RunOutcome(None, OnlyFind, Screen(CommandList([Find])))
  {
    var b := OnlyFind.plugins.value;
    assert ListPlugins(b) == [Some(Find)];
    assert Plugins(OnlyFind) == Ok([Some(Find)]);
    assert Present([Some(Find)]) == [Find];
  }

  /** Installing `activate` after `find` puts it first: bucket order is name order. */
  lemma InstallActivateAfterFind()
    ensures Run(App, OnlyFind, ["exampleapp", "--plugged-install", "activate"], TestProbe) == RunOutcome(None, Both, "")
  {
    ProbesAnswer();
    assert ["exampleapp", "--plugged-install", "activate"][2..] == ["activate"];
    assert Below("activate", "find");
    assert "activate" != "find";
    var b := OnlyFind.plugins.value;
    assert Save(b, Activate) == Ok(Put(b, "activate", Json(Activate)));
    assert Put(b, "activate", Json(Activate)) == [Entry("activate", Json(Activate))] + b;
    assert [Entry("activate", Json(Activate))] + b == Both.plugins.value;
    assert UpdatePlugin(OnlyFind, Activate) == Outcome(Both, None);
    var o := Install(OnlyFind, NewPlugin("exampleapp", "activate"), TestProbe);
    assert o == Outcome(Both, None);
    assert ["activate"][1..] == [];
    assert InstallEach(OnlyFind, App.name, ["activate"], TestProbe).db == Both;
  }

  /** "default message with some plugins installed with one command". */
  lemma InstallBothInOneRun()
    ensures Run(App, Empty, ["exampleapp", "--plugged-install", "find", "activate"], TestProbe) == RunOutcome(None, Both, "")
  {
    ProbesAnswer();
    var args := ["exampleapp", "--plugged-install", "find", "activate"];
    assert args[2..] == ["find", "activate"];
    assert ["find", "activate"][1..] == ["activate"];
    var o := Install(Empty, NewPlugin("exampleapp", "find"), TestProbe);
    assert o.db == OnlyFind;
    InstallActivateAfterFind();
    assert ["activate"][1..] == [];
  }

  /** With both plugins installed the listing puts `activate` before `find`. */
  lemma ListingOfBoth()
    ensures Plugins(Both) == Ok([Some(Activate), Some(Find)])
  {
    var b := Both.plugins.value;
    assert b[1..] == [Entry("find", Json(Find))];
    assert ListPlugins(b) == [Some(Activate), Some(Find)];
  }

  /** "default message with some plugins": the help screen lists both. */
  lemma HelpWithBoth(args: seq<string>)
    requires args == ["exampleapp"]
    ensures Run(App, Both, args, TestProbe) == RunOutcome(None, Both, Screen(CommandList([Activate, Find])))
  {
    ListingOfBoth();
    PresentOfBoth();
  }

  /** The two-plugin listing has no nil entry, so all of it is presented. */
  lemma PresentOfBoth()
    ensures Present([Some(Activate), Some(Find)]) == [Activate, Find]
  {
    assert [Some(Activate), Some(Find)][1..] == [Some(Find)];
  }

  /** The store after installing `activate` alone. */
  const OnlyActivate := Db(None, Some([Entry("activate", Json(Activate))]))

  /** "find command when find plugin is not installed but there are some plugins". */
  lemma FindMissingAmongPlugins(args: seq<string>, env: seq<string>)
    requires args == ["exampleapp", "find", "stuff"]
    ensures RunWithPlugins(App, OnlyActivate, args, TestProbe, env, TestLookPath, TestExec)
      == DispatchOutcome(None, OnlyActivate,
           Notice(App, "find", "Plugin 'find' was not found") + Screen(CommandList([Activate])), None)
  {
    assert !IsHelp(args) && args[1] != InstallFlag;
    FindNotAmongActivate();
    HelpWithActivate();
  }

  /** Looking `find` up in the store holding only `activate`. */
  lemma FindNotAmongActivate()
    ensures Resolve(OnlyActivate, "find") == Missing("Plugin 'find' was not found")
  {
    var b := OnlyActivate.plugins.value;
    assert "activate"[0] != "find"[0];
    assert Get(b[1..], "find") == None;
  }

  /** The help screen with only `activate` installed. */
  lemma HelpWithActivate()
    ensures Help(App, OnlyActivate) == RunOutcome(None, OnlyActivate, Screen(CommandList([Activate])))
  {
    var b := OnlyActivate.plugins.value;
    assert ListPlugins(b) == [Some(Activate)];
    assert Plugins(OnlyActivate) == Ok([Some(Activate)]);
    assert Present([Some(Activate)]) == [Activate];
  }

  /** "find command when find plugin is not installed": nothing installed at all. */
  lemma FindMissingWithoutPlugins(env: seq<string>)
    ensures RunWithPlugins(App, Empty, ["exampleapp", "find", "stuff"], TestProbe, env, TestLookPath, TestExec)
      == DispatchOutcome(None, Empty, Notice(App, "find", "There are no plugins installed") + Screen(HelpEntry), None)
  {
    assert Plugins(Empty) == Ok([]);
    assert Present([]) == [];
  }

  /** The scripts of "find command when find plugin is installed": both
      answer the probe with "Activate stuff.". */
  function RunScriptProbe(command: string, args: seq<string>): Result<string, string>
  {
    if command == "exampleapp-find" && args == [DescriptionFlag] then Ok("Activate stuff.")
    else if command == "exampleapp-activate" then Ok("Activate stuff.")
    else Err("executable file not found in $PATH")
  }

  /** The `find` record that scenario installs. */
  const FindAlike := Plugin("find", "Activate stuff.", "exampleapp")

  /** The store after that scenario's install step. */
  const BothAlike := Db(None, Some([Entry("activate", Json(Activate)), Entry("find", Json(FindAlike))]))

  /** The install step of "find command when find plugin is installed". */
  lemma InstallForRun(args: seq<string>)
    requires args == ["exampleapp", "--plugged-install", "activate", "find"]
    ensures Run(App, Empty, args, RunScriptProbe) == RunOutcome(None, BothAlike, "")
  {
    assert args[2..] == ["activate", "find"];
    assert ["activate", "find"][1..] == ["find"];
    assert ["find"][1..] == [];
    InstallActivateIntoEmpty();
    InstallFindAfterActivate();
  }

  /** That scenario's first install: `activate` into the fresh store. */
  lemma InstallActivateIntoEmpty()
    ensures Install(Empty, NewPlugin("exampleapp", "activate"), RunScriptProbe) == Outcome(OnlyActivate, None)
  {
    assert CommandName(NewPlugin("exampleapp", "activate")) == "exampleapp-activate";
    assert Save([], Activate) == Ok([Entry("activate", Json(Activate))]);
  }

  /** Installing that scenario's `find` next to `activate` appends it: bucket order is name order. */
  lemma InstallFindAfterActivate()
    ensures Install(OnlyActivate, NewPlugin("exampleapp", "find"), RunScriptProbe) == Outcome(BothAlike, None)
  {
    assert CommandName(NewPlugin("exampleapp", "find")) == "exampleapp-find";
    var b := OnlyActivate.plugins.value;
    assert Below("activate", "find");
    assert Put(b[1..], "find", Json(FindAlike)) == [Entry("find", Json(FindAlike))];
    assert Put(b, "find", Json(FindAlike)) == BothAlike.plugins.value;
    assert Save(b, FindAlike) == Ok(BothAlike.plugins.value);
  }

  /** "find command when find plugin is installed": the script is exec'd with
      its command name and the remaining arguments. */
  lemma FindInstalledRuns(args: seq<string>, env: seq<string>)
    requires args == ["exampleapp", "find", "stuff", "things"]
    ensures RunWithPlugins(App, BothAlike, args, RunScriptProbe, env, TestLookPath, TestExec)
      == DispatchOutcome(None, BothAlike, "",
           Some(ExecCall("tmp/bin/exampleapp-find", ["exampleapp-find", "stuff", "things"], env)))
  {
    var b := BothAlike.plugins.value;
    GetAt(b, 1);
    assert Lookup(BothAlike, "find") == Some(Json(FindAlike));
    assert CommandName(FindAlike) == "exampleapp-find";
    assert !IsHelp(args) && args[1] != InstallFlag;
    assert Resolve(BothAlike, "find") == Found(FindAlike);
    assert TestLookPath("exampleapp-find") == Ok("tmp/bin/exampleapp-find");
    assert args[2..] == ["stuff", "things"];
    assert ["exampleapp-find"] + ["stuff", "things"] == ["exampleapp-find", "stuff", "things"];
  }
}

=== FILE: store.dfy ===
/** The gateway's store: a bolt database holding the one "plugins" bucket,
    read and written in single transactions (`UpdatePlugin`, `Plugins`). */
module Store {
  import opened Results
  import opened Bucket
  import opened Errors
  import opened Plugin

  /** The database as one transaction sees it. `fault` is a failure bolt
      reports for every transaction (a closed database, an I/O error);
      `plugins` is the bucket, absent until the first successful save. */
  datatype Db = Db(fault: Option<string>, plugins: Option<Bucket<Blob>>)

  /** The result of an operation that may write: the database afterwards and the error, if any. */
  datatype Outcome = Outcome(db: Db, err: Option<Error>)

  /** A database that never had a plugin installed. */
  const Empty := Db(None, None)

  /** The data stored under `k`; a missing bucket holds nothing. */
  function Lookup(db: Db, k: string): Option<Blob>
  {
    if db.plugins.None? then None else Get(db.plugins.value, k)
  }

  /** The catalog invariant: every decodable entry is named after its key. */
  predicate Valid(db: Db)
  {
    db.plugins.Some? ==> Faithful(db.plugins.value)
  }

  /** Every decodable record in the store belongs to application `appName`,
      as the install path of that application leaves it. */
  ghost predicate OwnedBy(db: Db, appName: string)
  {
    forall k :: Lookup(db, k).Some? && Lookup(db, k).value.Json? ==> Lookup(db, k).value.record.appName == appName
  }

  /** Upsert in one read-write transaction: creates the bucket if needed and
      saves the record under its name. A failure rolls the whole transaction
      back, bucket creation included. */
  function UpdatePlugin(db: Db, p: Plugin): (r: Outcome)
    ensures r.err.None? <==> db.fault.None? && p.name != ""
    ensures r.err.Some? ==> r.db == db
    ensures db.fault.Some? ==> r.err == Some(StoreFailed(db.fault.value))
    ensures db.fault.None? && p.name == "" ==> r.err == Some(SaveToBucketFailed(StoreFailed(KeyRequired)))
    ensures r.err.None? ==> r.db.fault.None? && r.db.plugins.Some?
    ensures r.err.None? ==> forall k :: Lookup(r.db, k) == if k == p.name then Some(Encode(p)) else Lookup(db, k)
  {
    if db.fault.Some? then Outcome(db, Some(StoreFailed(db.fault.value)))
    else
      var b := if db.plugins.Some? then db.plugins.value else [];
      match Save(b, p)
      case Err(e) => Outcome(db, Some(SaveToBucketFailed(e)))
      case Ok(b') => Outcome(Db(None, Some(b')), None)
  }

  /** What the upsert of a nameless record reports. */
  lemma KeyRequiredMessage()
    ensures Message(SaveToBucketFailed(StoreFailed(KeyRequired))) == "Unable to save plugin to bucket 'plugins' - key required"
  {
  }

  /** Upserting keeps the catalog invariant. */
  lemma UpdatePluginKeepsValid(db: Db, p: Plugin)
    requires Valid(db)
    ensures Valid(UpdatePlugin(db, p).db)
  {
    if db.fault.None? && p.name != "" {
      SaveKeepsFaithful(if db.plugins.Some? then db.plugins.value else [], p);
    }
  }

  /** The tolerant full listing in one read-only transaction: no bucket means
      no plugins, not an error; only a transaction failure is an error. */
  function Plugins(db: Db): (r: Result<seq<Option<Plugin>>, Error>)
    ensures r.Err? <==> db.fault.Some?
    ensures r.Err? ==> r.error == StoreFailed(db.fault.value)
    ensures db.fault.None? && db.plugins.None? ==> r == Ok([])
    ensures r.Ok? ==> |r.value| == if db.plugins.None? then 0 else |db.plugins.value|
    ensures r.Ok? && db.plugins.Some? ==> forall i :: 0 <= i < |r.value| ==>
      r.value[i] == PluginFrom(db.plugins.value, db.plugins.value[i].key).ToOption()
  {
    if db.fault.Some? then Err(StoreFailed(db.fault.value))
    else if db.plugins.None? then Ok([])
    else
      var b := db.plugins.value;
      assert forall i :: 0 <= i < |b| ==> ListPlugins(b)[i] == PluginFrom(b, b[i].key).ToOption() by {
        forall i | 0 <= i < |b| { ListingAgreesWithLookup(b, i); }
      }
      Ok(ListPlugins(b))
  }
}

=== FILE: text.dfy ===
/** String helpers: the byte order bolt sorts keys by, and line splitting and joining. */
module Text {

  /** Strict lexicographic order on strings. Go strings are UTF-8 and bolt
      compares keys byte by byte; UTF-8 preserves code-point order, so on
      sequences of Unicode scalars this is the same order. */
  predicate Below(a: string, b: string)
    decreases |a|
  {
    && |b| > 0
    && (|a| == 0 || a[0] < b[0] || (a[0] == b[0] && Below(a[1..], b[1..])))
  }

  lemma {:induction false} BelowIrreflexive(a: string)
    ensures !Below(a, a)
    decreases |a|
  {
    if |a| > 0 {
      BelowIrreflexive(a[1..]);
    }
  }

  lemma {:induction false} BelowTransitive(a: string, b: string, c: string)
    requires Below(a, b) && Below(b, c)
    ensures Below(a, c)
    decreases |a|
  {
    if |a| > 0 && a[0] == b[0] && b[0] == c[0] {
      BelowTransitive(a[1..], b[1..], c[1..]);
    }
  }

  lemma {:induction false} BelowTotal(a: string, b: string)
    ensures a == b || Below(a, b) || Below(b, a)
    decreases |a|
  {
    if |a| > 0 && |b| > 0 && a[0] == b[0] {
      BelowTotal(a[1..], b[1..]);
      if a[1..] == b[1..] {
        assert a == [a[0]] + a[1..];
        assert b == [b[0]] + b[1..];
      }
    }
  }

  /** A text built as `u + a`, then `m`, then `t` starts with `u`. */
  lemma PrefixOfFour(u: string, a: string, m: string, t: string)
    ensures |(u + a) + m + t| >= |u| && ((u + a) + m + t)[..|u|] == u
  {
    assert (u + a) + m + t == u + (a + m + t);
  }

  /** A text built as `h`, then `m`, then `b + c` ends with `c`. */
  lemma SuffixOfFour(h: string, m: string, b: string, c: string)
    ensures var s := h + m + (b + c); |s| >= |c| && s[|s| - |c|..] == c
  {
    assert h + m + (b + c) == (h + m + b) + c;
  }

  /** The middle of a three-part concatenation is its middle part. */
  lemma ConcatMiddle(a: string, b: string, c: string)
    ensures (a + b + c)[..|a|] == a
    ensures (a + b + c)[|a + b + c| - |c|..] == c
    ensures (a + b + c)[|a|..|a + b + c| - |c|] == b
  {
  }

  /** Joins `parts` with `sep` between consecutive parts. */
  function Join(parts: seq<string>, sep: string): string
  {
    if |parts| == 0 then ""
    else if |parts| == 1 then parts[0]
    else parts[0] + sep + Join(parts[1..], sep)
  }

  /** Splits `s` at every occurrence of `c`; the pieces never contain `c`. */
  function Split(s: string, c: char): (parts: seq<string>)
    ensures |parts| >= 1
    ensures forall i :: 0 <= i < |parts| ==> c !in parts[i]
    decreases |s|
  {
    if |s| == 0 then [""]
    else if s[0] == c then [""] + Split(s[1..], c)
    else
      var rest := Split(s[1..], c);
      [[s[0]] + rest[0]] + rest[1..]
  }

  /** A prefix free of the separator glues onto the first piece. */
  lemma {:induction false} SplitPrefix(a: string, t: string, c: char)
    requires c !in a
    ensures Split(a + t, c) == [a + Split(t, c)[0]] + Split(t, c)[1..]
    decreases |a|
  {
    var st := Split(t, c);
    if |a| > 0 {
      assert (a + t)[1..] == a[1..] + t;
      SplitPrefix(a[1..], t, c);
      var rest := Split(a[1..] + t, c);
      assert rest[0] == a[1..] + st[0];
      assert rest[1..] == st[1..];
      assert [a[0]] + (a[1..] + st[0]) == a + st[0];
    } else {
      assert a + t == t;
      assert a + st[0] == st[0];
      assert st == [st[0]] + st[1..];
    }
  }

  /** A leading separator opens an empty first piece. */
  lemma SplitLeading(t: string, c: char)
    ensures Split([c] + t, c) == [""] + Split(t, c)
  {
    assert ([c] + t)[1..] == t;
  }
}

=== FILE: views.dfy ===
/** The text the two templates produce: the command list (before the
    tabwriter aligns its columns) and the help screen around it. */
module Views {
  import opened Results
  import opened Text
  import opened Errors
  import opened Plugin

  /** The built-in help entry, always the last line of the command list. */
  const HelpText := "- help\t - This info."
  const HelpEntry := "\n" + HelpText

  /** What the template engine reports when a listed plugin is a nil pointer. */
  const NilPluginName := "nil pointer evaluating *plugged.pluginT.Name"

  /** One command-list line for a plugin, without its leading line break. */
  function EntryText(p: Plugin): string
  {
    "- " + p.name + "\t - " + p.description
  }

  /** A command-list line holds the name and the description verbatim, in
      their columns: both read back out. */
  lemma EntryTextFields(p: Plugin)
    ensures var line := EntryText(p);
      && |line| == |p.name| + |p.description| + 6
      && line[..2] == "- " && line[2..2 + |p.name|] == p.name
      && line[2 + |p.name|..6 + |p.name|] == "\t - " && line[6 + |p.name|..] == p.description
  {
    var line := EntryText(p);
    ConcatMiddle("- ", p.name, "\t - " + p.description);
    assert line == ("- " + p.name + "\t - ") + p.description;
  }

  /** The lines of the plugins' entries, in listing order. */
  function EntryTexts(ps: seq<Plugin>): (r: seq<string>)
    ensures |r| == |ps|
  {
    if |ps| == 0 then [] else [EntryText(ps[0])] + EntryTexts(ps[1..])
  }

  /** The command list for non-nil plugins: a line per plugin in list order,
      then the help entry. */
  function CommandList(ps: seq<Plugin>): (s: string)
    ensures |s| >= |HelpEntry| && s[|s| - |HelpEntry|..] == HelpEntry
    ensures |ps| == 0 <==> s == HelpEntry
  {
    if |ps| == 0 then HelpEntry
    else
      var rest := CommandList(ps[1..]);
      var s := "\n" + EntryText(ps[0]) + rest;
      assert s[|s| - |HelpEntry|..] == rest[|rest| - |HelpEntry|..];
      s
  }

  /** The plugins of a listing, nil entries dropped. */
  function Present(entries: seq<Option<Plugin>>): (ps: seq<Plugin>)
    ensures |ps| <= |entries|
    ensures (forall i :: 0 <= i < |entries| ==> entries[i].Some?) ==> |ps| == |entries|
    ensures forall p :: p in ps <==> Some(p) in entries
  {
    if |entries| == 0 then []
    else
      var rest := Present(entries[1..]);
      assert forall x :: x in entries <==> x == entries[0] || x in entries[1..];
      match entries[0]
      case Some(p) => [p] + rest
      case None => rest
  }

  /** Executing the command-list template on a listing: a nil entry stops the
      template with the engine's nil-pointer error; otherwise the list text. */
  function RenderCommandList(entries: seq<Option<Plugin>>): (r: Result<string, Error>)
    ensures r.Ok? <==> forall i :: 0 <= i < |entries| ==> entries[i].Some?
    ensures r.Ok? ==> r.value == CommandList(Present(entries))
    ensures r.Err? ==> r.error == CommandListFailed(NilPluginName)
  {
    if |entries| == 0 then Ok(HelpEntry)
    else
      match entries[0]
      case None => Err(CommandListFailed(NilPluginName))
      case Some(p) =>
        match RenderCommandList(entries[1..])
        case Ok(rest) => Ok("\n" + EntryText(p) + rest)
        case Err(e) => Err(e)
  }

  /** Names and descriptions free of line breaks make the command list one
      line per plugin, in list order, after an empty first line and before
      the help line, which is last. */
  lemma {:induction false} CommandListLines(ps: seq<Plugin>)
    requires forall i :: 0 <= i < |ps| ==> '\n' !in ps[i].name && '\n' !in ps[i].description
    ensures Split(CommandList(ps), '\n') == [""] + EntryTexts(ps) + [HelpText]
    decreases |ps|
  {
    if |ps| == 0 {
      assert CommandList(ps) == HelpEntry;
      HelpEntryLines();
      assert EntryTexts(ps) == [];
    } else {
      var e, rest := EntryText(ps[0]), CommandList(ps[1..]);
      CommandListLines(ps[1..]);
      EntryHasNoBreak(ps[0]);
      LinesStep(e, rest, EntryTexts(ps[1..]), HelpText);
      assert CommandList(ps) == "\n" + e + rest;
      assert EntryTexts(ps) == [e] + EntryTexts(ps[1..]);
    }
  }

  /** Putting a line break and a break-free line in front of a text adds
      that line after the text's empty first piece. */
  lemma LinesStep(e: string, rest: string, lines: seq<string>, last: string)
    requires '\n' !in e
    requires Split(rest, '\n') == [""] + lines + [last]
    ensures Split("\n" + e + rest, '\n') == [""] + ([e] + lines) + [last]
  {
    LineStep(e, rest);
    assert Split(rest, '\n')[1..] == lines + [last];
  }

  /** The help entry alone is an empty line followed by the help line. */
  lemma HelpEntryLines()
    ensures Split(HelpEntry, '\n') == ["", HelpText]
  {
    assert '\n' !in HelpText;
    LineStep(HelpText, "");
    assert "\n" + HelpText + "" == HelpEntry;
  }

  /** One more line in front: a line break, then a line free of breaks. */
  lemma LineStep(e: string, rest: string)
    requires '\n' !in e
    requires Split(rest, '\n')[0] == ""
    ensures Split("\n" + e + rest, '\n') == ["", e] + Split(rest, '\n')[1..]
  {
    var tail := Split(rest, '\n');
    SplitPrefix(e, rest, '\n');
    assert e + "" == e;
    assert "\n" + e + rest == ['\n'] + (e + rest);
    SplitLeading(e + rest, '\n');
  }

  /** An entry line breaks only where its name or description does. */
  lemma EntryHasNoBreak(p: Plugin)
    requires '\n' !in p.name && '\n' !in p.description
    ensures '\n' !in EntryText(p)
  {
    var e := EntryText(p);
    forall i | 0 <= i < |e| ensures e[i] != '\n' {
      if i < 2 {
      } else if i < 2 + |p.name| {
        assert e[i] == p.name[i - 2];
      } else if i < 2 + |p.name| + 4 {
      } else {
        assert e[i] == p.description[i - 6 - |p.name|];
      }
    }
  }

  /** The usage line and the application's description. */
  function Usage(name: string, description: string): string
  {
    "USAGE: " + name + " command [options]\n\n" + name + " - " + description
  }

  /** The last line of the help screen. */
  function Closing(name: string): string
  {
    "or '" + name + " command --help'.\n"
  }

  /** The part of the help screen before the command list. */
  function HelpHead(name: string, description: string): string
  {
    Usage(name, description) + "\n\nAvailable commands:\n"
  }

  /** The part of the help screen after the command list. */
  function HelpTail(name: string): string
  {
    "\n\nTo get help for any of commands you can do '" + name + " help command'\n" + Closing(name)
  }

  /** The help screen: usage line, the application's description, the command
      list verbatim, and the closing hint. */
  function HelpView(name: string, description: string, commands: string): (s: string)
    ensures |s| >= |Usage(name, description)| && s[..|Usage(name, description)|] == Usage(name, description)
    ensures |s| >= |Closing(name)| && s[|s| - |Closing(name)|..] == Closing(name)
  {
    var s := HelpHead(name, description) + commands + HelpTail(name);
    PrefixOfFour(Usage(name, description), "\n\nAvailable commands:\n", commands, HelpTail(name));
    SuffixOfFour(HelpHead(name, description), commands,
      "\n\nTo get help for any of commands you can do '" + name + " help command'\n", Closing(name));
    s
  }

  /** Reads the command list back out of a help screen for `name`. */
  function CommandsOf(screen: string, name: string, description: string): Option<string>
  {
    var head, tail := HelpHead(name, description), HelpTail(name);
    if |screen| >= |head| + |tail| && screen[..|head|] == head && screen[|screen| - |tail|..] == tail
    then Some(screen[|head|..|screen| - |tail|])
    else None
  }

  /** The help screen carries the command list verbatim: it can be read back. */
  lemma HelpViewCarriesCommands(name: string, description: string, commands: string)
    ensures CommandsOf(HelpView(name, description, commands), name, description) == Some(commands)
  {
    var head, tail := HelpHead(name, description), HelpTail(name);
    ConcatMiddle(head, commands, tail);
  }
}
